=== FILE: README.md ===
# ConnectHub friend subsystem, modelled in Dafny

This project models the friend subsystem of the ConnectHub social network, plus two small
client-side helpers:

- **Friend requests** (`controllers/friendsController.js`, `models/FriendRequest.js`). Requests are
  held as a `seq<FriendRequest>` store, where each request is `{id, from, to, status, createdAt}`.
  Each of the five handlers is a pure function of the store, the user table and the authenticated
  caller `me`:
  - suggestions scored by shared interests;
  - sending a request;
  - listing incoming pending requests;
  - answering a request;
  - listing friends.

  A failing handler returns `Err(...)` and no new store, so a failure leaves the stored requests
  as they were.
- **Image URLs** (`app/utils/imageUtils.ts`). This part turns a stored image path into
  `baseUrl/path`, or refuses it.
- **Route guard** (`middleware.ts`). This part decides, from the pathname and the session cookie,
  between a redirect to `/login`, a redirect to `/profile`, or passing the request on.

## Files

| file | module | contents |
|---|---|---|
| common.dfy | `Common` | `Option`, `Result`, `Min` |
| seqs.dfy | `Seqs` | `Filter`, `Map`, `Subseq`, `Distinct`, counting lemmas, a descending insertion sort |
| strings.dfy | `Strings` | `startsWith`, `includes`, ECMAScript `trim`, single-character `replace` |
| user.dfy | `UserModel` | the user fields the handlers read, `findById` |
| friend_request.dfy | `FriendRequestModel` | the schema (status enum, defaults, required endpoints) and the store invariants |
| friends_controller.dfy | `FriendsController` | the five handlers and their lemmas |
| image_utils.dfy | `ImageUtils` | `getImageUrl`, `isValidImagePath` |
| middleware.dfy | `Middleware` | the route guard |

## Notes on the model

- **Rounding.** `Math.round(c / n * 100)` is modelled in exact arithmetic as `(200c + n) / (2n)`:
  the nearest integer to `100c/n`, with halves rounded up. It can be one higher than the double
  computation when the exact value is a half: for 23 of 40, JavaScript computes `57.49999999999999`
  and rounds to 57, while the model gives 58.
- **Division by zero.** The score divides by the caller's interest count. The handler needs no
  precondition for this. `Candidates` proves that a non-empty candidate pool implies a non-empty
  interest list, because a `$in` query over no interests matches nobody. A caller without
  interests therefore gets an empty list, never `NaN`.
- **Self-requests.** The code has no check that `from != to`, so a user may send a request to
  themself (`SelfRequestAccepted`). This model follows the code.
- **Scores above 100.** A candidate that lists no interest twice scores in [0, 100]
  (`ScoreAtMost100`). A repeated shared interest can push the score past 100: `[Tech, Tech]`
  against `[Tech]` scores 200 (`RepeatedInterestExceeds100`).
- **Rejection is permanent.** A rejected request blocks every later request between the two users,
  in both directions (`RejectBlocksPairForever`, `ExistingRequestBlocksPair`).
- **Stronger uniqueness.** The schema's unique index covers ordered `(from, to)` pairs. The
  controller's `$or` check keeps a stronger invariant: no two requests join the same two users in
  any direction (`UniquePairs`). Both send and answer preserve it.
- **Save-time validation.** `sendFriendRequest` saves a document whose endpoints are required. The
  model includes this validation: an empty caller id makes the save fail (`SaveFailed`, the
  server-error response). This is the only server-error path modelled.
- **Placeholder filter.** The check for `undefined`, `null` and `NaN` is a plain substring test on
  the whole URL. A path such as `img/annulled.png` is therefore refused (`NullInPathRefused`, `AnnulledPathRefused`).
- **Unreachable check.** The second emptiness check in `getImageUrl` can never fire
  (`CleanPathOfNonBlankIsNonEmpty`).

## Model

| member | source | states |
|---|---|---|
| FriendRequestModel.StatusName | models/FriendRequest.js:16 | the stored string of each status: `pending`, `accepted`, `rejected` |
| FriendRequestModel.ParseStatus | models/FriendRequest.js:14-17 | a status string is accepted exactly when it is one of `pending`, `accepted`, `rejected`, and the accepted status names it back |
| FriendRequestModel.NewFriendRequest | models/FriendRequest.js:3-23 | a new document saves exactly when both endpoints are present and the status is in the enum; status defaults to pending, `createdAt` to the clock, and the endpoints are kept |
| FriendRequestModel.UniqueOrderedPairs | models/FriendRequest.js:26 | the unique `{from, to}` index: no two stored requests share both sender and recipient |
| FriendRequestModel.UniquePairsRefineIndex | models/FriendRequest.js:26 | unordered-pair uniqueness implies the unique `(from, to)` index |
| FriendRequestModel.FreshId | controllers/friendsController.js:76-82 | a new request's id differs from the id of every stored request |
| UserModel.FindUser | controllers/friendsController.js:9-12 | the lookup returns a user of the table with the requested id, or nothing when no user has that id |
| FriendsController.CommonInterests | controllers/friendsController.js:24-26 | common interests are an order-preserving subsequence of the candidate's interests; every one is the caller's, and each of the caller's interests keeps its multiplicity |
| FriendsController.RoundedPercent | controllers/friendsController.js:27-32 | the score is the nearest integer to `100·part/whole`, halves rounded up |
| FriendsController.RoundedPercentAtMost100 | controllers/friendsController.js:27-32 | a part no larger than the whole rounds to at most 100 |
| FriendsController.SharesInterest | controllers/friendsController.js:17 | the `$in` condition: the user lists at least one of the caller's interests |
| FriendsController.Eligible | controllers/friendsController.js:15-18 | the query condition: the user is not the caller and shares an interest |
| FriendsController.Candidates | controllers/friendsController.js:15-20 | the pool holds at most 10 users, in table order, each other than the caller and sharing an interest; a pool shorter than 10 holds every such user; a non-empty pool means the caller has interests |
| FriendsController.Score | controllers/friendsController.js:24-32 | a scored candidate keeps its user; its common interests are the user's interests that the caller also has, in the user's order and with their multiplicities; its score is the nearest whole percentage of the caller's interests they make up, halves rounded up |
| FriendsController.ScoredAgainstMeans | controllers/friendsController.js:24-32 | a correctly scored suggestion carries the shared interests in the user's order with their multiplicities, and the nearest whole percentage they make of the caller's interests |
| FriendsController.ScoreAll | controllers/friendsController.js:23-34 | one suggestion per candidate, in pool order, each keeping its candidate and correctly scored against the caller's interests (whose meaning `ScoredAgainstMeans` states) |
| FriendsController.GetFriendSuggestions | controllers/friendsController.js:7-45 | fails exactly when the caller's user is missing; otherwise returns at most 10 suggestions, ordered by non-increasing score and a permutation of the scored pool; none is the caller, each shares an interest and carries its correct score; no interests gives no suggestions |
| FriendsController.RankedSuggestions | controllers/friendsController.js:15-37 | the ranked list holds at most 10 suggestions, ordered by non-increasing score and a permutation of the scored pool; each is another user sharing an interest, with its correct score; no interests gives an empty list |
| FriendsController.ScoredCandidates | controllers/friendsController.js:15-34 | every scored candidate is a user of the table other than the caller, with at least one common interest and its correct score |
| FriendsController.ScoreAtMost100 | controllers/friendsController.js:24-32 | a candidate without repeated interests scores between 0 and 100 |
| FriendsController.SuggestionScoresInRange | controllers/friendsController.js:23-37 | when no user repeats an interest, every returned score is between 0 and 100 |
| FriendsController.HalfOverlapScoresFifty | controllers/friendsController.js:24-32 | interests [Tech, Music] against [Tech, Art] give common [Tech] and score 50 |
| FriendsController.RepeatedInterestExceeds100 | controllers/friendsController.js:24-32 | a repeated shared interest can push the score past 100: `[Tech, Tech]` against `[Tech]` scores 200 |
| FriendsController.Present | controllers/friendsController.js:59 | the truthiness test on `toUserId`: the field is given and non-empty |
| FriendsController.PairExists | controllers/friendsController.js:64-69 | the `$or` lookup: some stored request joins the two users, in either direction and with any status |
| FriendsController.SendFriendRequest | controllers/friendsController.js:55-90 | a missing recipient fails first; then any request between the two users in either direction and with any status fails; otherwise exactly one pending request `me → to`, stamped with the clock and with a fresh id, is appended and the rest of the store is kept |
| FriendsController.SendPreservesValid | controllers/friendsController.js:64-82 | sending keeps ids unique, pairs unique in both directions, and endpoints present |
| FriendsController.ExistingRequestBlocksPair | controllers/friendsController.js:64-73 | any stored request, whatever its status, makes every later send between its two users fail, in both directions |
| FriendsController.SelfRequestAccepted | controllers/friendsController.js:57-82 | a request from a user to themself is accepted |
| FriendsController.IsAction | controllers/friendsController.js:127 | the action is `accept` or `reject` |
| FriendsController.Resolution | controllers/friendsController.js:144 | "accept" leads to accepted and "reject" to rejected, never to pending |
| FriendsController.FindById | controllers/friendsController.js:131-134 | finds the first request with the id, or reports that none has it |
| FriendsController.RespondToFriendRequest | controllers/friendsController.js:122-150 | checks in order invalid action (400), missing request (404), caller not the recipient (401), not pending (400); on success sets only that request's status to the action's outcome |
| FriendsController.RespondSucceedsExactly | controllers/friendsController.js:127-142 | answering succeeds exactly when the action is valid, the request exists, the caller is its recipient and it is pending |
| FriendsController.RespondChangesOnlyStatus | controllers/friendsController.js:140-145 | a successful answer keeps the store's length and every field but status; only the answered request's status changes, from pending to the action's outcome |
| FriendsController.RespondIsOneShot | controllers/friendsController.js:140-142 | once answered, a request can never be answered again, by anyone with any action |
| FriendsController.RespondPreservesValid | controllers/friendsController.js:144-145 | answering keeps every store invariant |
| FriendsController.IncomingPending | controllers/friendsController.js:102-105 | the query condition: the request is addressed to the caller and is pending |
| FriendsController.GetFriendRequests | controllers/friendsController.js:100-111 | returns exactly the pending requests addressed to the caller, with their multiplicities, newest first |
| FriendsController.AcceptedWith | controllers/friendsController.js:162-167 | the `$or` condition: the request is accepted and the caller is one of its endpoints |
| FriendsController.OtherEndpoint | controllers/friendsController.js:170 | the endpoint of a request that is not the caller: `to` when the caller sent it, else `from` |
| FriendsController.FriendIds | controllers/friendsController.js:162-171 | the collected ids are exactly the users joined to the caller by an accepted request |
| FriendsController.GetFriends | controllers/friendsController.js:160-181 | returns exactly the users of the table, in table order, joined to the caller by an accepted request in either direction |
| FriendsController.AreFriends | controllers/friendsController.js:162-171 | derived friendship: some accepted request joins the two users, in either direction |
| FriendsController.AreFriendsSymmetric | controllers/friendsController.js:162-171 | derived friendship is symmetric |
| FriendsController.AcceptMakesFriends | controllers/friendsController.js:144-171 | after an accept, each endpoint appears in the other's friends list |
| FriendsController.RejectBlocksPairForever | controllers/friendsController.js:64-73 | after a reject in a valid store, the two users are not friends and neither can send the other a new request |
| Seqs.Map | controllers/friendsController.js:169-171 | `map`: one result per element, in order, each the function applied to that element |
| Seqs.Filter | controllers/friendsController.js:24-26 | the kept elements are exactly those satisfying the test, in their original order and with their multiplicities |
| Seqs.SortDesc | controllers/friendsController.js:37 | the sort returns a permutation of its input ordered by non-increasing key |
| Strings.StartsWith | app/utils/imageUtils.ts:22 | `startsWith`: the string begins with the given prefix |
| Strings.Contains | app/utils/imageUtils.ts:26 | `includes`: the part occurs in the string as a contiguous run at some position |
| Strings.IsJsWhitespace | app/utils/imageUtils.ts:13 | the characters `trim` removes: the ECMAScript WhiteSpace and LineTerminator code points |
| Strings.Trim | app/utils/imageUtils.ts:7 | `trim`: the result is no longer than the input and, when non-empty, starts and ends with a non-blank character |
| Strings.TrimRemovesSurroundingWhitespace | app/utils/imageUtils.ts:7 | `trim`: the result is the input with its leading and trailing ECMAScript whitespace removed, a contiguous run between a blank prefix and a blank suffix |
| Strings.TrimEmptyIffBlank | app/utils/imageUtils.ts:7 | trimming leaves nothing exactly when every character is ECMAScript whitespace |
| Strings.TrimStart | app/utils/imageUtils.ts:13 | leading trim removes only whitespace and leaves a suffix starting with a non-blank character |
| Strings.TrimEnd | app/utils/imageUtils.ts:13 | trailing trim removes only whitespace and leaves a prefix ending with a non-blank character |
| Strings.ReplaceChar | app/utils/imageUtils.ts:13 | every backslash becomes a slash; every other character is kept in place |
| Strings.MissingCharNotContained | app/utils/imageUtils.ts:26 | a string cannot contain a substring with a character the string lacks |
| Strings.ContainedInSuffix | app/utils/imageUtils.ts:26 | a substring of the tail of a string is a substring of the whole string |
| Strings.ContainsAt | app/utils/imageUtils.ts:26 | a substring found at some position is contained |
| ImageUtils.IsBlank | app/utils/imageUtils.ts:7 | a path is blank when it is missing or trims to nothing |
| ImageUtils.HasPlaceholder | app/utils/imageUtils.ts:26 | a URL mentions `undefined`, `null` or `NaN` anywhere |
| ImageUtils.BaseUrl | app/utils/imageUtils.ts:12 | a set, non-empty environment value is the base; otherwise `http://localhost:5000` |
| ImageUtils.CleanPath | app/utils/imageUtils.ts:13 | the cleaned path has no backslash |
| ImageUtils.ComposeUrl | app/utils/imageUtils.ts:22-23 | the URL starts with the base followed by one slash, and has no backslash when the base has none |
| ImageUtils.StripLeadingSlash | app/utils/imageUtils.ts:22 | removes exactly one leading slash when there is one, else nothing |
| ImageUtils.GetImageUrl | app/utils/imageUtils.ts:6-40 | blank input gives null; a result is `baseUrl + "/" + normalizedPath`, has no `undefined`, `null` or `NaN`, satisfies the URL parser and has no backslash when the base has none; a non-blank input is refused only by the placeholder or parser check |
| ImageUtils.CleanPathOfNonBlankIsNonEmpty | app/utils/imageUtils.ts:13-18 | a non-blank path is non-empty after cleaning, so the second emptiness check never fires |
| ImageUtils.AcceptedWhenChecksPass | app/utils/imageUtils.ts:20-35 | a non-blank path whose URL passes both checks yields that URL |
| ImageUtils.IsValidImagePath | app/utils/imageUtils.ts:47-49 | a path is valid exactly when it is not blank and its URL has no placeholder and parses |
| ImageUtils.NoPlaceholder | app/utils/imageUtils.ts:26-29 | a URL without the letters `u` and `N` passes the placeholder check |
| ImageUtils.DoubleSlashKeepsOne | app/utils/imageUtils.ts:22 | `//a` is stripped to `/a`: only one leading slash is removed |
| ImageUtils.BackslashesBecomeSlashes | app/utils/imageUtils.ts:13-23 | `\a\b` cleans to `/a/b` and normalizes to `a/b` |
| ImageUtils.CleanPathOfTidy | app/utils/imageUtils.ts:13 | cleaning leaves a path without backslashes and without surrounding blanks unchanged |
| ImageUtils.TidyPathAccepted | app/utils/imageUtils.ts:6-35 | a tidy relative path that with its base lacks `u` and `N` yields `base/path` whenever the parser accepts it, so acceptance is reachable |
| ImageUtils.TidyPathKeepsRun | app/utils/imageUtils.ts:13-26 | a run found in a tidy relative path is still found after cleaning and slash removal |
| ImageUtils.AnnulledPathRefused | app/utils/imageUtils.ts:26-29 | `img/annulled.png` is refused whatever the base and the parser |
| ImageUtils.NullInPathRefused | app/utils/imageUtils.ts:26-29 | a path whose normalized form mentions `null` anywhere, such as `img/annulled.png`, is refused whatever the base and the parser |
| Middleware.HasToken | middleware.ts:8 | a token counts only when the cookie is present and non-empty |
| Middleware.IsProtected | middleware.ts:10 | `some(startsWith)`: the pathname starts with one of the protected routes |
| Middleware.ProtectedPrefixes | middleware.ts:4-10 | a path is protected exactly when it starts with `/profile` or `/posts/create` |
| Middleware.Route | middleware.ts:7-19 | redirect to `/login` exactly when there is no token and the path starts with a protected route; redirect to `/profile` exactly when there is a token and the path equals a public route; otherwise pass |
| Middleware.SignedInReachesProtectedPages | middleware.ts:10-18 | with a token, protected paths always pass |
| Middleware.RouteListsDisjoint | middleware.ts:4-5 | no path is both protected and public |
| Middleware.ProtectedMatchesByPrefix | middleware.ts:10-12 | without a token `/profilex`, `/profile/jane/edit` and `/posts/create` redirect to login, while `/posts/42` passes |
| Middleware.PublicMatchesExactly | middleware.ts:14-16 | with a token the pathnames `/login` and `/register` redirect to profile, while `/login/x` and `/loginx` pass |

## Left out

- The document-store mechanics are not modelled: `findById`, `find`, `findOne`, `$in`, `$or`, `populate`, `select` and `save`. They are filters and lookups over in-memory sequences. The `select("-password -email")` projection and the `populate` of user summaries are not modelled, so handlers return whole `User` values and bare requests.
- The JSON envelopes (`success`, `data`, `totalSuggestions`) are not modelled. HTTP statuses appear as `ApiError` values; the comment on each constructor gives its status code.
- Exceptions mapped to a 500 response are left out: database errors, and ObjectId cast errors for malformed ids. Ids are plain values here. `toUserId` and the caller id are taken to be the canonical lowercase-hex spelling. The code casts `toUserId` to an ObjectId before the lookup, so a case variant of an existing partner's id is refused there but not by this model. The one exception kept is the required-field validation on save in `sendFriendRequest`.
- Re-validation when an answered request is saved is not modelled. The document was valid when stored, and only its status changes, to a value in the enum.
- Concurrency is not modelled. Two simultaneous sends in opposite directions could both pass the `$or` check; the unique index rejects only a same-direction duplicate. The model is sequential.
- FriendsController.RoundedPercent: exact rational rounding instead of IEEE double arithmetic, so float error in `c / n * 100` next to a half is not modelled.
- Seqs.SortDesc: stability is not stated. The insertion sort keeps equal keys in input order, like JavaScript's `Array.prototype.sort`, but its contract gives only order and permutation. The order of equal scores is left open, and so is the store's order of equal `createdAt` values.
- FriendsController.GetFriendRequests: the order among requests with equal `createdAt` is not stated, for the same reason.
- ImageUtils.GetImageUrl: `new URL(...)` is the parameter `isValidUrl`, and `process.env.NEXT_PUBLIC_API_URL` is the parameter `env`. The `typeof imagePath !== 'string'` check is implied by the parameter type. Logging is dropped.
- `routes/friendsRoutes.js` is Express wiring. The authentication it installs is represented by the caller id `me`.
- The auth context, the React pages and the components are UI and network code and are not part of this model.
- `models/User.js` is not part of this model. Only a user's id and interests are represented.
- Real-time notifications are not modelled; they do not appear in the modelled files.

=== FILE: common.dfy ===
/** Failure-carrying result types shared by the whole model. */
module Common {

  /** A value that may be missing: a JavaScript `null`/`undefined` or an absent request field. */
  datatype Option<+T> = None | Some(value: T)

  /** The outcome of a request handler: the data it returns, or the error response it sends. */
  datatype Result<+T, +E> = Ok(value: T) | Err(error: E)

  function Min(a: int, b: int): int {
    if a <= b then a else b
  }
}

=== FILE: friend_request.dfy ===
/** The FriendRequest document: its fields, defaults and validation, and the invariants of the
    collection of stored requests. */
module FriendRequestModel {
  import opened Common
  import opened UserModel

  type RequestId = nat

  /** The status enum of the schema. */
  datatype Status = Pending | Accepted | Rejected

  /** The schema's default status. */
  const DefaultStatus: Status := Pending

  function StatusName(s: Status): string {
    match s
    case Pending => "pending"
    case Accepted => "accepted"
    case Rejected => "rejected"
  }

  /** Enum validation: a status string is accepted exactly when it names one of the three states. */
  function ParseStatus(name: string): (r: Option<Status>)
    ensures r.Some? ==> StatusName(r.value) == name
    ensures r.None? ==> forall s: Status :: StatusName(s) != name
  {
    if name == "pending" then Some(Pending)
    else if name == "accepted" then Some(Accepted)
    else if name == "rejected" then Some(Rejected)
    else None
  }

  lemma StatusNameRoundTrip(s: Status)
    ensures ParseStatus(StatusName(s)) == Some(s)
  {
  }

  datatype FriendRequest = FriendRequest(
    id: RequestId,
    from: UserId,
    to: UserId,
    status: Status,
    createdAt: int)

  /** Why the document layer refuses to save a new request. */
  datatype SchemaError = FromRequired | ToRequired | StatusNotInEnum

  /** `new FriendRequest({...})` followed by validation on save: both endpoints are required, the
      status must be in the enum and defaults to pending, and `createdAt` defaults to the clock `now`. */
  function NewFriendRequest(id: RequestId, from: UserId, to: UserId, status: Option<string>, now: int)
    : (r: Result<FriendRequest, SchemaError>)
    ensures r.Ok? <==> from != "" && to != "" && (status.None? || ParseStatus(status.value).Some?)
    ensures r.Ok? ==> r.value.id == id && r.value.from == from && r.value.to == to && r.value.createdAt == now
    ensures r.Ok? && status.None? ==> r.value.status == DefaultStatus
    ensures r.Ok? && status.Some? ==> StatusName(r.value.status) == status.value
  {
    if from == "" then Err(FromRequired)
    else if to == "" then Err(ToRequired)
    else
      var s := if status.None? then Some(DefaultStatus) else ParseStatus(status.value);
      if s.None? then Err(StatusNotInEnum)
      else Ok(FriendRequest(id, from, to, s.value, now))
  }

  /** The request joins `a` and `b`, in one direction or the other. */
  predicate Involves(r: FriendRequest, a: UserId, b: UserId) {
    (r.from == a && r.to == b) || (r.from == b && r.to == a)
  }

  predicate UniqueIds(store: seq<FriendRequest>) {
    forall i, j :: 0 <= i < j < |store| ==> store[i].id != store[j].id
  }

  /** The schema's unique index on the ordered pair `(from, to)`. */
  predicate UniqueOrderedPairs(store: seq<FriendRequest>) {
    forall i, j :: 0 <= i < j < |store| ==> store[i].from != store[j].from || store[i].to != store[j].to
  }

  /** No two requests join the same two users, whatever their directions. */
  predicate UniquePairs(store: seq<FriendRequest>) {
    forall i, j :: 0 <= i < j < |store| ==> !Involves(store[j], store[i].from, store[i].to)
  }

  predicate EndpointsPresent(store: seq<FriendRequest>) {
    forall i :: 0 <= i < |store| ==> store[i].from != "" && store[i].to != ""
  }

  /** What every reachable store satisfies. */
  predicate ValidStore(store: seq<FriendRequest>) {
    UniqueIds(store) && UniquePairs(store) && EndpointsPresent(store)
  }

  /** The unordered uniqueness kept by the controller implies the schema's ordered index. */
  lemma UniquePairsRefineIndex(store: seq<FriendRequest>)
    requires UniquePairs(store)
    ensures UniqueOrderedPairs(store)
  {
  }

  /** The id a new document receives: larger than every id in the store, hence unused. */
  function FreshId(store: seq<FriendRequest>): (id: RequestId)
    ensures forall i :: 0 <= i < |store| ==> store[i].id < id
  {
    if store == [] then 0
    else
      var rest := FreshId(store[1..]);
      assert forall i :: 1 <= i < |store| ==> store[i] == store[1..][i - 1];
      if store[0].id + 1 > rest then store[0].id + 1 else rest
  }
}

=== FILE: friends_controller.dfy ===
/** The friend request handlers: suggestions by shared interests, sending a request, listing
    incoming requests, answering one, and listing friends. Each handler is a pure function of
    the stored data and the authenticated caller `me`; a handler that fails returns an error
    and no new store, so the stored requests stay as they were. */
module FriendsController {
  import opened Common
  import opened Seqs
  import opened UserModel
  import opened FriendRequestModel

  /** The error responses of the handlers. */
  datatype ApiError =
    | UserNotFound        // 404: the caller's own user document is missing
    | RecipientRequired   // 400: no `toUserId` in the body
    | RequestExists       // 400: a request between the two users already exists
    | InvalidAction       // 400: the action is neither "accept" nor "reject"
    | RequestNotFound     // 404: no request with that id
    | NotAddressee        // 401: the caller is not the recipient of the request
    | AlreadyProcessed    // 400: the request is no longer pending
    | SaveFailed          // 500: the document layer refused to save

  /** The new store and the saved request a successful write answers with. */
  datatype Saved = Saved(store: seq<FriendRequest>, request: FriendRequest)

  // ---------------------------------------------------------------------------
  // Friend suggestions

  const SuggestionLimit: nat := 10

  datatype Suggestion = Suggestion(user: User, commonInterests: seq<Interest>, similarityScore: int)

  /** The query `interests: { $in: mine }`: the user has at least one of `mine`. */
  predicate SharesInterest(u: User, mine: seq<Interest>) {
    exists x :: x in u.interests && x in mine
  }

  /** The candidate's interests that the caller also has, in the candidate's order. */
  function CommonInterests(theirs: seq<Interest>, mine: seq<Interest>): (c: seq<Interest>)
    ensures Subseq(c, theirs)
    ensures forall x :: x in c ==> x in mine
    ensures forall x :: x in mine ==> multiset(c)[x] == multiset(theirs)[x]
  {
    Filter(theirs, (x: Interest) => x in mine)
  }

  /** `Math.round(part / whole * 100)` for non-negative operands, in exact arithmetic:
      the nearest integer to the percentage, halves rounded up. */
  function RoundedPercent(part: nat, whole: nat): (p: nat)
    requires whole > 0
    ensures 2 * whole * p <= 200 * part + whole < 2 * whole * (p + 1)
  {
    (200 * part + whole) / (2 * whole)
  }

  /** A share of at most the whole never rounds above 100 percent. */
  lemma RoundedPercentAtMost100(part: nat, whole: nat)
    requires whole > 0 && part <= whole
    ensures RoundedPercent(part, whole) <= 100
  {
    var p := RoundedPercent(part, whole);
    if p > 100 {
      assert 2 * whole * p >= 2 * whole * 101 by {
        MultiplyMonotone(2 * whole, 101, p);
      }
    }
  }

  lemma MultiplyMonotone(a: nat, b: nat, c: nat)
    requires b <= c
    ensures a * b <= a * c
  {
  }

  /** One scored candidate: the user with its common interests and their rounded share of `mine`. */
  function Score(u: User, mine: seq<Interest>): (s: Suggestion)
    requires |mine| > 0
    ensures s.user == u && ScoredAgainst(s, mine)
    ensures Subseq(s.commonInterests, u.interests)
    ensures forall x :: x in s.commonInterests ==> x in mine
    ensures forall x :: x in mine ==> multiset(s.commonInterests)[x] == multiset(u.interests)[x]
    ensures 2 * |mine| * s.similarityScore <= 200 * |s.commonInterests| + |mine|
              < 2 * |mine| * (s.similarityScore + 1)
  {
    var common := CommonInterests(u.interests, mine);
    var s := Suggestion(u, common, RoundedPercent(|common|, |mine|));
    ScoredAgainstMeans(s, mine);
    s
  }

  /** What a correctly scored suggestion carries: the user's interests that the caller shares, in
      the user's order and with their multiplicities, and the nearest whole percentage of the
      caller's interests they make up. */
  lemma ScoredAgainstMeans(s: Suggestion, mine: seq<Interest>)
    requires ScoredAgainst(s, mine)
    ensures Subseq(s.commonInterests, s.user.interests)
    ensures forall x :: x in s.commonInterests ==> x in mine
    ensures forall x :: x in mine ==> multiset(s.commonInterests)[x] == multiset(s.user.interests)[x]
    ensures 2 * |mine| * s.similarityScore <= 200 * |s.commonInterests| + |mine|
              < 2 * |mine| * (s.similarityScore + 1)
  {
    SharedInterestsMeans(s.commonInterests, s.user.interests, mine);
    PercentMeans(s.similarityScore, |s.commonInterests|, |mine|);
  }

  /** The common interests' defining facts, taken from `CommonInterests`'s contract. */
  lemma SharedInterestsMeans(common: seq<Interest>, theirs: seq<Interest>, mine: seq<Interest>)
    requires common == CommonInterests(theirs, mine)
    ensures Subseq(common, theirs)
    ensures forall x :: x in common ==> x in mine
    ensures forall x :: x in mine ==> multiset(common)[x] == multiset(theirs)[x]
  {
  }

  /** The rounding inequality, taken from `RoundedPercent`'s contract. */
  lemma PercentMeans(p: int, part: nat, whole: nat)
    requires whole > 0 && p == RoundedPercent(part, whole)
    ensures 2 * whole * p <= 200 * part + whole < 2 * whole * (p + 1)
  {
  }

  /** A suggestion carries its user's common interests and the rounded share of `mine` they make up. */
  predicate ScoredAgainst(s: Suggestion, mine: seq<Interest>) {
    && |mine| > 0
    && s.commonInterests == CommonInterests(s.user.interests, mine)
    && s.similarityScore == RoundedPercent(|s.commonInterests|, |mine|)
  }

  function ScoreOf(s: Suggestion): int {
    s.similarityScore
  }

  predicate Eligible(u: User, me: UserId, mine: seq<Interest>) {
    u.id != me && SharesInterest(u, mine)
  }

  /** The query `{ _id: { $ne: me }, interests: { $in: mine } }` with `.limit(10)`: the first ten
      eligible users in table order. */
  function Candidates(users: seq<User>, me: UserId, mine: seq<Interest>): (pool: seq<User>)
    ensures |pool| <= SuggestionLimit
    ensures Subseq(pool, users)
    ensures forall u :: u in pool ==> u in users && Eligible(u, me, mine)
    ensures |pool| < SuggestionLimit ==> forall u :: u in users && Eligible(u, me, mine) ==> u in pool
    ensures |pool| > 0 ==> |mine| > 0
  {
    var eligible := Filter(users, (u: User) => Eligible(u, me, mine));
    var n := Min(|eligible|, SuggestionLimit);
    PrefixIsSubseq(eligible, n, users);
    assert n > 0 ==> |mine| > 0 by {
      if n > 0 {
        assert eligible[0] in eligible;
        var x :| x in eligible[0].interests && x in mine;
      }
    }
    assert forall u :: u in eligible[..n] ==> u in eligible;
    eligible[..n]
  }

  lemma {:induction false} PrefixIsSubseq<T>(a: seq<T>, n: nat, b: seq<T>)
    requires n <= |a| && Subseq(a, b)
    ensures Subseq(a[..n], b)
    decreases |b|
  {
    if n > 0 && b != [] {
      assert a[..n][1..] == a[1..][..n - 1];
      if a[0] == b[0] {
        PrefixIsSubseq(a[1..], n - 1, b[1..]);
      } else {
        PrefixIsSubseq(a, n, b[1..]);
      }
    }
  }

  /** Scores every candidate against `mine`, keeping their order. */
  function ScoreAll(pool: seq<User>, mine: seq<Interest>): (r: seq<Suggestion>)
    requires |pool| > 0 ==> |mine| > 0
    ensures |r| == |pool|
    ensures forall i :: 0 <= i < |r| ==> r[i].user == pool[i] && ScoredAgainst(r[i], mine)
  {
    seq(|pool|, i requires 0 <= i < |pool| => Score(pool[i], mine))
  }

  /** `getFriendSuggestions`: score the first ten users sharing an interest with the caller and
      order them by descending score. */
  function GetFriendSuggestions(users: seq<User>, me: UserId): (r: Result<seq<Suggestion>, ApiError>)
    ensures r.Err? <==> FindUser(users, me).None?
    ensures r.Err? ==> r.error == UserNotFound
    ensures r.Ok? ==> |r.value| <= SuggestionLimit && SortedDesc(r.value, ScoreOf)
    ensures r.Ok? ==> (
      var mine := FindUser(users, me).value.interests;
      multiset(r.value) == multiset(ScoreAll(Candidates(users, me, mine), mine)))
    ensures r.Ok? ==> forall s :: s in r.value ==>
      && s.user in users
      && s.user.id != me
      && |s.commonInterests| > 0
      && s.similarityScore >= 0
      && ScoredAgainst(s, FindUser(users, me).value.interests)
    ensures r.Ok? && |FindUser(users, me).value.interests| == 0 ==> r.value == []
  {
    match FindUser(users, me)
    case None => Err(UserNotFound)
    case Some(current) => Ok(RankedSuggestions(users, me, current.interests))
  }

  /** The candidates scored against `mine` and sorted by descending score. */
  function RankedSuggestions(users: seq<User>, me: UserId, mine: seq<Interest>): (r: seq<Suggestion>)
    ensures |r| <= SuggestionLimit && SortedDesc(r, ScoreOf)
    ensures multiset(r) == multiset(ScoreAll(Candidates(users, me, mine), mine))
    ensures forall s :: s in r ==>
      s.user in users && s.user.id != me && |s.commonInterests| > 0 && ScoredAgainst(s, mine)
    ensures |mine| == 0 ==> r == []
  {
    var scored := ScoreAll(Candidates(users, me, mine), mine);
    var sorted := SortDesc(scored, ScoreOf);
    ScoredCandidates(users, me, mine);
    assert forall s :: s in sorted ==> s in scored by {
      forall s | s in sorted ensures s in scored {
        assert s in multiset(sorted);
      }
    }
    sorted
  }

  /** Every scored candidate is another user of the table sharing an interest with the caller. */
  lemma ScoredCandidates(users: seq<User>, me: UserId, mine: seq<Interest>)
    ensures forall s :: s in ScoreAll(Candidates(users, me, mine), mine) ==>
      s.user in users && s.user.id != me && |s.commonInterests| > 0 && ScoredAgainst(s, mine)
  {
    var pool := Candidates(users, me, mine);
    var scored := ScoreAll(pool, mine);
    forall s | s in scored
      ensures s.user in users && s.user.id != me && |s.commonInterests| > 0 && ScoredAgainst(s, mine)
    {
      var i :| 0 <= i < |scored| && scored[i] == s;
      assert pool[i] in pool;
      var x :| x in s.user.interests && x in mine;
      assert x in s.commonInterests;
    }
  }


  /** A candidate without repeated interests never scores above 100: its common interests are
      distinct members of `mine`. */
  lemma ScoreAtMost100(u: User, mine: seq<Interest>)
    requires |mine| > 0 && Distinct(u.interests)
    ensures 0 <= Score(u, mine).similarityScore <= 100
  {
    var common := CommonInterests(u.interests, mine);
    FilterKeepsDistinct(u.interests, (x: Interest) => x in mine);
    DistinctElementsCount(common);
    SubsetCardinality(Elements(common), Elements(mine));
    ElementsAtMostLength(mine);
    RoundedPercentAtMost100(|common|, |mine|);
  }

  /** When no user lists an interest twice, every suggested score lies in [0, 100]. */
  lemma SuggestionScoresInRange(users: seq<User>, me: UserId)
    requires forall u :: u in users ==> Distinct(u.interests)
    ensures GetFriendSuggestions(users, me).Ok? ==>
      forall s :: s in GetFriendSuggestions(users, me).value ==> 0 <= s.similarityScore <= 100
  {
    var r := GetFriendSuggestions(users, me);
    if r.Ok? {
      var mine := FindUser(users, me).value.interests;
      forall s | s in r.value ensures 0 <= s.similarityScore <= 100 {
        ScoreAtMost100(s.user, mine);
      }
    }
  }

  /** Interests [Tech, Music] against a candidate with [Tech, Art]: one of two shared, 50 percent. */
  lemma HalfOverlapScoresFifty()
    ensures Score(User("b", ["Tech", "Art"]), ["Tech", "Music"]).similarityScore == 50
    ensures Score(User("b", ["Tech", "Art"]), ["Tech", "Music"]).commonInterests == ["Tech"]
  {
  }

  /** A candidate listing a shared interest twice counts it twice and can score above 100. */
  lemma RepeatedInterestExceeds100()
    ensures Score(User("b", ["Tech", "Tech"]), ["Tech"]).similarityScore == 200
  {
  }

  // ---------------------------------------------------------------------------
  // Sending a request

  /** A body field is present when it is truthy: neither missing nor the empty string. */
  predicate Present(field: Option<string>) {
    field.Some? && field.value != ""
  }

  /** The `findOne` with `$or` over both directions finds a request. */
  predicate PairExists(store: seq<FriendRequest>, a: UserId, b: UserId) {
    exists i :: 0 <= i < |store| && Involves(store[i], a, b)
  }

  /** `sendFriendRequest`: refuse a missing recipient, then any existing request between the two
      users in either direction and with any status; otherwise append a new pending request. */
  function SendFriendRequest(store: seq<FriendRequest>, me: UserId, toUserId: Option<string>, now: int)
    : (r: Result<Saved, ApiError>)
    ensures !Present(toUserId) ==> r == Err(RecipientRequired)
    ensures Present(toUserId) && PairExists(store, me, toUserId.value) ==> r == Err(RequestExists)
    ensures r.Ok? <==> Present(toUserId) && !PairExists(store, me, toUserId.value) && me != ""
    ensures r.Err? ==> r.error in {RecipientRequired, RequestExists, SaveFailed}
    ensures r.Ok? ==>
      && r.value.store == store + [r.value.request]
      && r.value.request.from == me
      && r.value.request.to == toUserId.value
      && r.value.request.status == Pending
      && r.value.request.createdAt == now
      && forall i :: 0 <= i < |store| ==> store[i].id != r.value.request.id
  {
    if !Present(toUserId) then Err(RecipientRequired)
    else if PairExists(store, me, toUserId.value) then Err(RequestExists)
    else
      match NewFriendRequest(FreshId(store), me, toUserId.value, Some("pending"), now)
      case Err(_) => Err(SaveFailed)
      case Ok(request) => Ok(Saved(store + [request], request))
  }

  /** Sending keeps every store invariant. */
  lemma SendPreservesValid(store: seq<FriendRequest>, me: UserId, toUserId: Option<string>, now: int)
    requires ValidStore(store)
    requires SendFriendRequest(store, me, toUserId, now).Ok?
    ensures ValidStore(SendFriendRequest(store, me, toUserId, now).value.store)
  {
    var s' := SendFriendRequest(store, me, toUserId, now).value.store;
    var n := |store|;
    assert UniquePairs(s') by {
      forall i, j | 0 <= i < j < |s'| ensures !Involves(s'[j], s'[i].from, s'[i].to) {
        if j == n {
          assert !Involves(store[i], me, toUserId.value);
        }
      }
    }
  }

  /** An existing request, whatever its status, blocks every later request between its two users
      in both directions. */
  lemma ExistingRequestBlocksPair(store: seq<FriendRequest>, k: nat, now: int)
    requires k < |store|
    ensures SendFriendRequest(store, store[k].from, Some(store[k].to), now).Err?
    ensures SendFriendRequest(store, store[k].to, Some(store[k].from), now).Err?
  {
    assert Involves(store[k], store[k].from, store[k].to);
    assert Involves(store[k], store[k].to, store[k].from);
  }

  /** There is no self-request check: a user may send a request to themself. */
  lemma SelfRequestAccepted(me: UserId, now: int)
    requires me != ""
    ensures SendFriendRequest([], me, Some(me), now).Ok?
  {
  }

  // ---------------------------------------------------------------------------
  // Answering a request

  predicate IsAction(action: string) {
    action == "accept" || action == "reject"
  }

  /** The terminal status an action leads to. */
  function Resolution(action: string): (s: Status)
    requires IsAction(action)
    ensures s != Pending
    ensures s == Accepted <==> action == "accept"
  {
    if action == "accept" then Accepted else Rejected
  }

  /** `FriendRequest.findById`: the position of the first request with the given id. */
  function FindById(store: seq<FriendRequest>, id: RequestId): (k: Option<nat>)
    ensures k.Some? ==> k.value < |store| && store[k.value].id == id
    ensures k.Some? ==> forall i :: 0 <= i < k.value ==> store[i].id != id
    ensures k.None? <==> forall i :: 0 <= i < |store| ==> store[i].id != id
  {
    if store == [] then None
    else if store[0].id == id then Some(0)
    else
      match FindById(store[1..], id)
      case None => None
      case Some(k) => Some(k + 1)
  }

  /** `respondToFriendRequest`: check, in this order, the action, that the request exists, that the
      caller is its recipient and that it is still pending; then set its status once. */
  function RespondToFriendRequest(store: seq<FriendRequest>, me: UserId, requestId: RequestId, action: string)
    : (r: Result<Saved, ApiError>)
    ensures !IsAction(action) ==> r == Err(InvalidAction)
    ensures IsAction(action) && FindById(store, requestId).None? ==> r == Err(RequestNotFound)
    ensures IsAction(action) && FindById(store, requestId).Some? ==>
      var k := FindById(store, requestId).value;
      && (store[k].to != me ==> r == Err(NotAddressee))
      && (store[k].to == me && store[k].status != Pending ==> r == Err(AlreadyProcessed))
      && (store[k].to == me && store[k].status == Pending ==>
            && r.Ok?
            && r.value.request == store[k].(status := Resolution(action))
            && r.value.store == store[k := r.value.request])
  {
    if !IsAction(action) then Err(InvalidAction)
    else
      match FindById(store, requestId)
      case None => Err(RequestNotFound)
      case Some(k) =>
        var request := store[k];
        if request.to != me then Err(NotAddressee)
        else if request.status != Pending then Err(AlreadyProcessed)
        else
          var answered := request.(status := Resolution(action));
          Ok(Saved(store[k := answered], answered))
  }

  /** A successful answer only changes the status of the answered request, from pending to the
      action's terminal status; every other request, and every other field, is untouched. */
  lemma RespondChangesOnlyStatus(store: seq<FriendRequest>, me: UserId, requestId: RequestId, action: string)
    requires RespondToFriendRequest(store, me, requestId, action).Ok?
    ensures var s' := RespondToFriendRequest(store, me, requestId, action).value.store;
      && |s'| == |store|
      && (forall i :: 0 <= i < |store| ==>
            s'[i].(status := store[i].status) == store[i]
            && (s'[i].status != store[i].status ==> s'[i].id == requestId))
      && (forall i :: 0 <= i < |store| && store[i].id == requestId && s'[i].status != store[i].status ==>
            store[i].status == Pending && s'[i].status == Resolution(action) && store[i].to == me)
  {
  }

  /** Every failed answer names the first failing check, and one of them always applies unless the
      caller is the recipient of a pending request and the action is valid. */
  lemma RespondSucceedsExactly(store: seq<FriendRequest>, me: UserId, requestId: RequestId, action: string)
    ensures RespondToFriendRequest(store, me, requestId, action).Ok? <==>
      && IsAction(action)
      && (exists i :: 0 <= i < |store| && store[i].id == requestId)
      && store[FindById(store, requestId).value].to == me
      && store[FindById(store, requestId).value].status == Pending
  {
  }

  /** Accepted and rejected are terminal: once answered, a request can never be answered again,
      by anyone and with any action. */
  lemma RespondIsOneShot(store: seq<FriendRequest>, me: UserId, requestId: RequestId, action: string,
                         me2: UserId, action2: string)
    requires RespondToFriendRequest(store, me, requestId, action).Ok?
    ensures RespondToFriendRequest(RespondToFriendRequest(store, me, requestId, action).value.store,
                                   me2, requestId, action2).Err?
  {
    var k := FindById(store, requestId).value;
    var s' := RespondToFriendRequest(store, me, requestId, action).value.store;
    assert FindById(s', requestId) == Some(k) by {
      assert forall i :: 0 <= i < |s'| ==> s'[i].id == store[i].id;
    }
  }

  /** Answering keeps every store invariant. */
  lemma RespondPreservesValid(store: seq<FriendRequest>, me: UserId, requestId: RequestId, action: string)
    requires ValidStore(store)
    requires RespondToFriendRequest(store, me, requestId, action).Ok?
    ensures ValidStore(RespondToFriendRequest(store, me, requestId, action).value.store)
  {
    var s' := RespondToFriendRequest(store, me, requestId, action).value.store;
    assert forall i :: 0 <= i < |s'| ==>
      s'[i].id == store[i].id && s'[i].from == store[i].from && s'[i].to == store[i].to;
  }

  // ---------------------------------------------------------------------------
  // Listing incoming requests

  function CreatedAt(r: FriendRequest): int {
    r.createdAt
  }

  predicate IncomingPending(r: FriendRequest, me: UserId) {
    r.to == me && r.status == Pending
  }

  /** `getFriendRequests`: the pending requests addressed to the caller, newest first. */
  function GetFriendRequests(store: seq<FriendRequest>, me: UserId): (r: seq<FriendRequest>)
    ensures forall x :: multiset(r)[x] == if IncomingPending(x, me) then multiset(store)[x] else 0
    ensures forall x :: x in r <==> x in store && IncomingPending(x, me)
    ensures SortedDesc(r, CreatedAt)
  {
    var incoming := Filter(store, (x: FriendRequest) => IncomingPending(x, me));
    var sorted := SortDesc(incoming, CreatedAt);
    assert forall x :: x in sorted <==> x in multiset(incoming);
    sorted
  }

  // ---------------------------------------------------------------------------
  // Listing friends

  /** Friendship is derived: `a` and `b` are friends when an accepted request joins them. */
  ghost predicate AreFriends(store: seq<FriendRequest>, a: UserId, b: UserId) {
    exists i :: 0 <= i < |store| && store[i].status == Accepted && Involves(store[i], a, b)
  }

  predicate AcceptedWith(r: FriendRequest, me: UserId) {
    r.status == Accepted && (r.from == me || r.to == me)
  }

  /** The endpoint of a request that is not the caller. */
  function OtherEndpoint(r: FriendRequest, me: UserId): UserId {
    if r.from == me then r.to else r.from
  }

  /** The ids the handler collects: the other endpoint of each accepted request touching `me`. */
  function FriendIds(store: seq<FriendRequest>, me: UserId): (ids: seq<UserId>)
    ensures forall u :: u in ids <==> AreFriends(store, me, u)
  {
    var accepted := Filter(store, (x: FriendRequest) => AcceptedWith(x, me));
    var ids := Map(accepted, (x: FriendRequest) => OtherEndpoint(x, me));
    assert forall u :: u in ids <==> AreFriends(store, me, u) by {
      forall u ensures u in ids ==> AreFriends(store, me, u) {
        if u in ids {
          var k :| 0 <= k < |ids| && ids[k] == u;
          assert accepted[k] in accepted;
          var i :| 0 <= i < |store| && store[i] == accepted[k];
          assert Involves(store[i], me, u);
        }
      }
      forall u ensures AreFriends(store, me, u) ==> u in ids {
        if AreFriends(store, me, u) {
          var i :| 0 <= i < |store| && store[i].status == Accepted && Involves(store[i], me, u);
          assert store[i] in accepted;
          var k :| 0 <= k < |accepted| && accepted[k] == store[i];
          assert ids[k] == u;
        }
      }
    }
    ids
  }

  /** `getFriends`: the users, in table order, whose id is the other end of an accepted request
      touching the caller. */
  function GetFriends(store: seq<FriendRequest>, users: seq<User>, me: UserId): (r: seq<User>)
    ensures forall u :: u in r <==> u in users && AreFriends(store, me, u.id)
    ensures Subseq(r, users)
  {
    var ids := FriendIds(store, me);
    Filter(users, (u: User) => u.id in ids)
  }

  lemma AreFriendsSymmetric(store: seq<FriendRequest>, a: UserId, b: UserId)
    ensures AreFriends(store, a, b) <==> AreFriends(store, b, a)
  {
  }

  /** After an accept, each endpoint appears in the other's friends list. */
  lemma AcceptMakesFriends(store: seq<FriendRequest>, me: UserId, requestId: RequestId, users: seq<User>)
    requires RespondToFriendRequest(store, me, requestId, "accept").Ok?
    ensures var saved := RespondToFriendRequest(store, me, requestId, "accept").value;
      && (forall u :: u in users && u.id == saved.request.from ==> u in GetFriends(saved.store, users, me))
      && (forall u :: u in users && u.id == me ==> u in GetFriends(saved.store, users, saved.request.from))
  {
    var saved := RespondToFriendRequest(store, me, requestId, "accept").value;
    var k := FindById(store, requestId).value;
    assert saved.store[k] == saved.request;
    assert AreFriends(saved.store, me, saved.request.from);
    assert AreFriends(saved.store, saved.request.from, me);
  }

  /** After a reject in a valid store, the two users are not friends and neither can ever send the
      other a new request. */
  lemma RejectBlocksPairForever(store: seq<FriendRequest>, me: UserId, requestId: RequestId, now: int)
    requires ValidStore(store)
    requires RespondToFriendRequest(store, me, requestId, "reject").Ok?
    ensures var saved := RespondToFriendRequest(store, me, requestId, "reject").value;
      && !AreFriends(saved.store, me, saved.request.from)
      && !AreFriends(saved.store, saved.request.from, me)
      && SendFriendRequest(saved.store, me, Some(saved.request.from), now).Err?
      && SendFriendRequest(saved.store, saved.request.from, Some(me), now).Err?
  {
    var saved := RespondToFriendRequest(store, me, requestId, "reject").value;
    var k := FindById(store, requestId).value;
    var from := saved.request.from;
    assert saved.store[k] == saved.request;
    forall i | 0 <= i < |saved.store| && i != k
      ensures !Involves(saved.store[i], me, from)
    {
      assert saved.store[i] == store[i];
      if i < k {
        assert !Involves(store[k], store[i].from, store[i].to);
      } else {
        assert !Involves(store[i], store[k].from, store[k].to);
      }
    }
    ExistingRequestBlocksPair(saved.store, k, now);
  }
}

=== FILE: image_utils.dfy ===
/** Turning an image path stored by the backend into an absolute URL, or refusing it. The
    environment variable with the API address and the platform's URL parser are parameters:
    `env` is the variable's value, `isValidUrl` says whether `new URL(...)` accepts a string. */
module ImageUtils {
  import opened Common
  import opened Strings

  /** The fallback API address when the environment variable is unset or empty. */
  const DefaultApiUrl: string := "http://localhost:5000"

  /** `process.env.NEXT_PUBLIC_API_URL || 'http://localhost:5000'`. */
  function BaseUrl(env: Option<string>): (b: string)
    ensures env.Some? && env.value != "" ==> b == env.value
    ensures env.None? || env.value == "" ==> b == DefaultApiUrl
  {
    if env.Some? && env.value != "" then env.value else DefaultApiUrl
  }

  /** Missing, empty or whitespace-only input. */
  predicate IsBlank(imagePath: Option<string>) {
    imagePath.None? || Trim(imagePath.value) == []
  }

  /** Backslashes turned into forward slashes, then trimmed. */
  function CleanPath(path: string): (c: string)
    ensures '\\' !in c
  {
    var replaced := ReplaceChar(path, '\\', '/');
    TrimKeepsCharacters(replaced);
    Trim(replaced)
  }

  /** Removes one leading slash, if there is one. */
  function StripLeadingSlash(path: string): (r: string)
    ensures StartsWith(path, "/") ==> [path[0]] + r == path
    ensures !StartsWith(path, "/") ==> r == path
  {
    if StartsWith(path, "/") then path[1..] else path
  }

  /** `${baseUrl}/${normalizedPath}`: the base, one slash, then the cleaned path without its own
      leading slash. */
  function ComposeUrl(baseUrl: string, path: string): (u: string)
    ensures |u| > |baseUrl| && u[..|baseUrl|] == baseUrl && u[|baseUrl|] == '/'
    ensures '\\' !in baseUrl ==> '\\' !in u
  {
    var normalizedPath := StripLeadingSlash(CleanPath(path));
    assert '\\' !in normalizedPath by {
      var c := CleanPath(path);
      if StartsWith(c, "/") {
        assert forall i :: 0 <= i < |normalizedPath| ==> normalizedPath[i] == c[i + 1];
      }
    }
    baseUrl + "/" + normalizedPath
  }

  /** A URL mentioning one of the JavaScript placeholder values. */
  predicate HasPlaceholder(url: string) {
    Contains(url, "undefined") || Contains(url, "null") || Contains(url, "NaN")
  }

  /** `getImageUrl`: refuse blank input, build `baseUrl/path` from the cleaned path, and refuse the
      result when it mentions a placeholder value or does not parse as a URL. */
  function GetImageUrl(imagePath: Option<string>, env: Option<string>, isValidUrl: string -> bool)
    : (r: Option<string>)
    ensures IsBlank(imagePath) ==> r == None
    ensures r.Some? ==> r.value == BaseUrl(env) + "/" + StripLeadingSlash(CleanPath(imagePath.value))
    ensures r.Some? ==> !Contains(r.value, "undefined") && !Contains(r.value, "null") && !Contains(r.value, "NaN")
    ensures r.Some? ==> isValidUrl(r.value)
    ensures r.Some? && '\\' !in BaseUrl(env) ==> '\\' !in r.value
    ensures r.None? && !IsBlank(imagePath) ==>
      var url := ComposeUrl(BaseUrl(env), imagePath.value);
      HasPlaceholder(url) || !isValidUrl(url)
  {
    if IsBlank(imagePath) then None
    else
      var cleanPath := CleanPath(imagePath.value);
      CleanPathOfNonBlankIsNonEmpty(imagePath.value);
      if cleanPath == [] then None
      else
        var finalUrl := ComposeUrl(BaseUrl(env), imagePath.value);
        if HasPlaceholder(finalUrl) then None
        else if !isValidUrl(finalUrl) then None
        else Some(finalUrl)
  }

  /** The second emptiness check after cleaning never fires: replacing backslashes keeps every
      non-blank character non-blank, so a non-blank input still has one after cleaning. */
  lemma CleanPathOfNonBlankIsNonEmpty(path: string)
    requires Trim(path) != []
    ensures CleanPath(path) != []
  {
    var replaced := ReplaceChar(path, '\\', '/');
    TrimEmptyIffBlank(path);
    var k :| 0 <= k < |path| && !IsJsWhitespace(path[k]);
    ReplacingKeepsNonBlank(path, k);
    TrimEmptyIffBlank(replaced);
  }

  lemma ReplacingKeepsNonBlank(path: string, k: nat)
    requires k < |path| && !IsJsWhitespace(path[k])
    ensures !IsJsWhitespace(ReplaceChar(path, '\\', '/')[k])
  {
    if path[k] == '\\' {
      assert ReplaceChar(path, '\\', '/')[k] == '/';
    }
  }

  /** `isValidImagePath`: a path is valid exactly when it is not blank and the URL built from it
      has no placeholder value and parses. */
  function IsValidImagePath(imagePath: Option<string>, env: Option<string>, isValidUrl: string -> bool)
    : (b: bool)
    ensures b <==>
      && !IsBlank(imagePath)
      && !HasPlaceholder(ComposeUrl(BaseUrl(env), imagePath.value))
      && isValidUrl(ComposeUrl(BaseUrl(env), imagePath.value))
  {
    GetImageUrl(imagePath, env, isValidUrl) != None
  }

  /** The converse of refusal: a non-blank path whose URL has no placeholder and parses is accepted. */
  lemma AcceptedWhenChecksPass(path: string, env: Option<string>, isValidUrl: string -> bool)
    requires Trim(path) != []
    requires !HasPlaceholder(ComposeUrl(BaseUrl(env), path))
    requires isValidUrl(ComposeUrl(BaseUrl(env), path))
    ensures GetImageUrl(Some(path), env, isValidUrl) == Some(ComposeUrl(BaseUrl(env), path))
  {
  }

  /** A URL lacking the letters 'u' and 'N' mentions no placeholder value. */
  lemma NoPlaceholder(url: string)
    requires 'u' !in url && 'N' !in url
    ensures !HasPlaceholder(url)
  {
    MissingCharNotContained(url, "undefined", 'u');
    MissingCharNotContained(url, "null", 'u');
    MissingCharNotContained(url, "NaN", 'N');
  }

  /** A path that cleaning leaves alone. */
  lemma CleanPathOfTidy(path: string)
    requires path != [] && '\\' !in path
    requires !IsJsWhitespace(path[0]) && !IsJsWhitespace(path[|path| - 1])
    ensures CleanPath(path) == path
  {
    ReplaceAbsentChar(path, '\\', '/');
    TrimOfTrimmed(path);
  }

  /** Only one leading slash is removed: "//a" keeps one. */
  lemma DoubleSlashKeepsOne()
    ensures StripLeadingSlash("//a") == "/a"
  {
  }

  /** Windows separators become forward slashes before the leading one is removed. The path is a
      parameter fixed by `requires` rather than a literal in the `ensures`: a literal there lets
      the verifier evaluate `Trim` on it without bound. */
  lemma BackslashesBecomeSlashes(path: string)
    requires path == "\\a\\b"
    ensures CleanPath(path) == "/a/b"
    ensures StripLeadingSlash(CleanPath(path)) == "a/b"
  {
    var replaced := ReplaceChar(path, '\\', '/');
    assert replaced == "/a/b";
    TrimOfTrimmed(replaced);
  }

  /** Acceptance is reachable: a tidy relative path (no backslash, no surrounding blanks, no
      leading slash) that with its base lacks the letters `u` and `N` yields `base/path` whenever
      the parser accepts that string; `a` under the base `h` gives `h/a`. */
  lemma TidyPathAccepted(path: string, env: Option<string>, isValidUrl: string -> bool)
    requires path != [] && path[0] != '/' && '\\' !in path
    requires !IsJsWhitespace(path[0]) && !IsJsWhitespace(path[|path| - 1])
    requires 'u' !in BaseUrl(env) + "/" + path && 'N' !in BaseUrl(env) + "/" + path
    requires isValidUrl(BaseUrl(env) + "/" + path)
    ensures GetImageUrl(Some(path), env, isValidUrl) == Some(BaseUrl(env) + "/" + path)
  {
    var url := BaseUrl(env) + "/" + path;
    CleanPathOfTidy(path);
    assert ComposeUrl(BaseUrl(env), path) == url;
    NoPlaceholder(url);
    TrimOfTrimmed(path);
    AcceptedWhenChecksPass(path, env, isValidUrl);
  }

  /** The placeholder check is a plain substring test over the whole URL: a stored path that
      mentions "null" anywhere, such as `img/annulled.png`, is refused whatever the base. */
  lemma NullInPathRefused(imagePath: Option<string>, env: Option<string>, isValidUrl: string -> bool)
    requires imagePath.Some? && Contains(StripLeadingSlash(CleanPath(imagePath.value)), "null")
    ensures GetImageUrl(imagePath, env, isValidUrl) == None
  {
    var tail := StripLeadingSlash(CleanPath(imagePath.value));
    ContainedInSuffix(BaseUrl(env) + "/", tail, "null");
    assert ComposeUrl(BaseUrl(env), imagePath.value) == BaseUrl(env) + "/" + tail;
  }

  /** A run found in a tidy relative path is still there once the path is normalized. */
  lemma TidyPathKeepsRun(path: string, part: string, i: nat)
    requires path != [] && path[0] != '/' && '\\' !in path
    requires !IsJsWhitespace(path[0]) && !IsJsWhitespace(path[|path| - 1])
    requires i + |part| <= |path| && path[i..i + |part|] == part
    ensures Contains(StripLeadingSlash(CleanPath(path)), part)
  {
    CleanPathOfTidy(path);
    ContainsAt(path, part, i);
  }

  /** `img/annulled.png` is refused whatever the base and the parser: "null" occurs inside it. */
  lemma AnnulledPathRefused(env: Option<string>, isValidUrl: string -> bool)
    ensures GetImageUrl(Some("img/annulled.png"), env, isValidUrl) == None
  {
    var path := "img/annulled.png";
    assert path[6..10] == "null";
    TidyPathKeepsRun(path, "null", 6);
    NullInPathRefused(Some(path), env, isValidUrl);
  }
}

=== FILE: middleware.dfy ===
/** The edge middleware that guards pages: visitors without a session token are sent to the login
    page from protected pages, and signed-in visitors are sent to their profile from the login and
    registration pages. */
module Middleware {
  import opened Common
  import opened Strings

  /** Pages that need a session; matched by prefix. */
  const ProtectedRoutes: seq<string> := ["/profile", "/posts/create"]

  /** Pages for visitors without a session; matched exactly. */
  const PublicRoutes: seq<string> := ["/login", "/register"]

  datatype Decision = RedirectToLogin | RedirectToProfile | Next

  /** The `token` cookie counts only when it is present and non-empty (a truthy string). */
  predicate HasToken(token: Option<string>) {
    token.Some? && token.value != ""
  }

  predicate IsProtected(pathname: string) {
    exists i :: 0 <= i < |ProtectedRoutes| && StartsWith(pathname, ProtectedRoutes[i])
  }

  lemma ProtectedPrefixes(pathname: string)
    ensures IsProtected(pathname) <==>
      StartsWith(pathname, "/profile") || StartsWith(pathname, "/posts/create")
  {
    if StartsWith(pathname, "/profile") {
      assert StartsWith(pathname, ProtectedRoutes[0]);
    }
    if StartsWith(pathname, "/posts/create") {
      assert StartsWith(pathname, ProtectedRoutes[1]);
    }
  }

  /** `middleware`: the decision for a request to `pathname` carrying the cookie value `token`. */
  function Route(pathname: string, token: Option<string>): (d: Decision)
    ensures d == RedirectToLogin <==>
      !HasToken(token) && (StartsWith(pathname, "/profile") || StartsWith(pathname, "/posts/create"))
    ensures d == RedirectToProfile <==>
      HasToken(token) && (pathname == "/login" || pathname == "/register")
    ensures d == Next <==>
      if HasToken(token) then pathname != "/login" && pathname != "/register"
      else !StartsWith(pathname, "/profile") && !StartsWith(pathname, "/posts/create")
  {
    ProtectedPrefixes(pathname);
    if IsProtected(pathname) && !HasToken(token) then RedirectToLogin
    else if pathname in PublicRoutes && HasToken(token) then RedirectToProfile
    else Next
  }

  /** A signed-in visitor is never sent to the login page: protected pages pass. */
  lemma SignedInReachesProtectedPages(pathname: string, token: Option<string>)
    requires HasToken(token) && IsProtected(pathname)
    ensures Route(pathname, token) == Next
  {
    RouteListsDisjoint(pathname);
  }

  /** No page is both protected and public, so the two redirects are told apart by the token alone. */
  lemma RouteListsDisjoint(pathname: string)
    ensures !(IsProtected(pathname) && pathname in PublicRoutes)
  {
    if IsProtected(pathname) {
      var i :| 0 <= i < |ProtectedRoutes| && StartsWith(pathname, ProtectedRoutes[i]);
      assert pathname[1] == ProtectedRoutes[i][1] == 'p';
      assert "/login"[1] == 'l' && "/register"[1] == 'r';
    }
  }

  /** Protected matching is by prefix: sub-pages and lookalike names are guarded too. */
  lemma ProtectedMatchesByPrefix(token: Option<string>)
    requires !HasToken(token)
    ensures Route("/profilex", token) == RedirectToLogin
    ensures Route("/profile/jane/edit", token) == RedirectToLogin
    ensures Route("/posts/create", token) == RedirectToLogin
    ensures Route("/posts/42", token) == Next
  {
    assert StartsWith("/profilex", "/profile");
    assert StartsWith("/profile/jane/edit", "/profile");
    assert StartsWith("/posts/create", "/posts/create");
    assert "/posts/42"[..8][2] != "/profile"[2];
    assert !StartsWith("/posts/42", "/posts/create");
  }

  /** Public matching is exact: only the bare login and register paths redirect. */
  lemma PublicMatchesExactly(token: Option<string>)
    requires HasToken(token)
    ensures Route("/login", token) == RedirectToProfile
    ensures Route("/register", token) == RedirectToProfile
    ensures Route("/login/x", token) == Next
    ensures Route("/loginx", token) == Next
  {
  }
}

=== FILE: seqs.dfy ===
/** Sequence helpers standing in for the array and query operations of the friend handlers:
    `filter`, order-preserving selection, duplicate-freedom and a descending sort. */
module Seqs {

  /** `a` can be obtained from `b` by deleting elements (greedy leftmost matching). */
  predicate Subseq<T(==)>(a: seq<T>, b: seq<T>)
    decreases |b|
  {
    if a == [] then true
    else if b == [] then false
    else if a[0] == b[0] then Subseq(a[1..], b[1..])
    else Subseq(a, b[1..])
  }

  /** The elements of `xs` satisfying `p`, in their original order (`Array.prototype.filter`). */
  function Filter<T(==,!new)>(xs: seq<T>, p: T -> bool): (r: seq<T>)
    ensures |r| <= |xs|
    ensures forall x :: x in r <==> x in xs && p(x)
    ensures forall x :: multiset(r)[x] == if p(x) then multiset(xs)[x] else 0
    ensures Subseq(r, xs)
  {
    if xs == [] then []
    else
      assert xs == [xs[0]] + xs[1..];
      var rest := Filter(xs[1..], p);
      if p(xs[0]) then [xs[0]] + rest
      else
        assert rest == [] || rest[0] != xs[0] by {
          if rest != [] { assert rest[0] in rest; }
        }
        rest
  }

  /** `Array.prototype.map`. */
  function Map<A, B>(xs: seq<A>, f: A -> B): (r: seq<B>)
    ensures |r| == |xs|
    ensures forall i :: 0 <= i < |xs| ==> r[i] == f(xs[i])
  {
    seq(|xs|, i requires 0 <= i < |xs| => f(xs[i]))
  }

  predicate Distinct<T(==)>(s: seq<T>) {
    forall i, j :: 0 <= i < j < |s| ==> s[i] != s[j]
  }

  function Elements<T>(s: seq<T>): set<T> {
    set x | x in s
  }

  lemma {:induction false} ElementsAtMostLength<T>(s: seq<T>)
    ensures |Elements(s)| <= |s|
  {
    if s != [] {
      ElementsAtMostLength(s[1..]);
      assert Elements(s) == {s[0]} + Elements(s[1..]);
    }
  }

  lemma {:induction false} DistinctElementsCount<T>(s: seq<T>)
    requires Distinct(s)
    ensures |Elements(s)| == |s|
  {
    if s != [] {
      DistinctElementsCount(s[1..]);
      assert s[0] !in Elements(s[1..]);
      assert Elements(s) == {s[0]} + Elements(s[1..]);
    }
  }

  lemma {:induction false} FilterKeepsDistinct<T(!new)>(xs: seq<T>, p: T -> bool)
    requires Distinct(xs)
    ensures Distinct(Filter(xs, p))
  {
    if xs != [] {
      FilterKeepsDistinct(xs[1..], p);
      var rest := Filter(xs[1..], p);
      if p(xs[0]) {
        assert xs[0] !in rest;
        var r := [xs[0]] + rest;
        forall i, j | 0 <= i < j < |r| ensures r[i] != r[j] {
          if i == 0 { assert r[j] in rest; }
        }
      }
    }
  }

  lemma {:induction false} SubsetCardinality<T>(a: set<T>, b: set<T>)
    requires a <= b
    ensures |a| <= |b|
  {
    if a != {} {
      var x :| x in a;
      SubsetCardinality(a - {x}, b - {x});
    }
  }

  /** `xs` is ordered by non-increasing `key` (the order of a descending sort). */
  predicate SortedDesc<T>(xs: seq<T>, key: T -> int) {
    forall i, j :: 0 <= i < j < |xs| ==> key(xs[i]) >= key(xs[j])
  }

  lemma PrependSorted<T>(y: T, rest: seq<T>, key: T -> int)
    requires SortedDesc(rest, key)
    requires rest == [] || key(y) >= key(rest[0])
    ensures SortedDesc([y] + rest, key)
  {
    var r := [y] + rest;
    forall i, j | 0 <= i < j < |r| ensures key(r[i]) >= key(r[j]) {
      if i == 0 && j > 1 {
        assert key(rest[0]) >= key(rest[j - 1]);
      }
    }
  }

  /** Places `x` after every element whose key is at least its own. */
  function Insert<T>(x: T, xs: seq<T>, key: T -> int): (r: seq<T>)
    requires SortedDesc(xs, key)
    ensures SortedDesc(r, key)
    ensures multiset(r) == multiset(xs) + multiset{x}
    ensures |r| == |xs| + 1
    ensures r[0] == x || (xs != [] && r[0] == xs[0])
  {
    if xs == [] then [x]
    else if key(xs[0]) >= key(x) then
      assert xs == [xs[0]] + xs[1..];
      var rest := Insert(x, xs[1..], key);
      PrependSorted(xs[0], rest, key);
      assert multiset([xs[0]] + rest) == multiset{xs[0]} + multiset(rest);
      [xs[0]] + rest
    else
      PrependSorted(x, xs, key);
      [x] + xs
  }

  /** Insertion sort by descending key; later elements go after earlier ones of equal key. */
  function SortDesc<T>(xs: seq<T>, key: T -> int): (r: seq<T>)
    ensures SortedDesc(r, key)
    ensures multiset(r) == multiset(xs)
    ensures |r| == |xs|
  {
    if xs == [] then []
    else
      assert xs == xs[..|xs| - 1] + [xs[|xs| - 1]];
      Insert(xs[|xs| - 1], SortDesc(xs[..|xs| - 1], key), key)
  }
}

=== FILE: strings.dfy ===
/** The JavaScript string operations `getImageUrl` and the route guard rely on, over `seq<char>`. */
module Strings {

  /** `String.prototype.startsWith`. */
  predicate StartsWith(s: string, prefix: string) {
    |prefix| <= |s| && s[..|prefix|] == prefix
  }

  /** `String.prototype.includes`: `part` occurs somewhere in `s` as a contiguous run. */
  predicate Contains(s: string, part: string)
    decreases |s|
  {
    StartsWith(s, part) || (s != [] && Contains(s[1..], part))
  }

  /** A run found at position `i` is contained. */
  lemma {:induction false} ContainsAt(s: string, part: string, i: nat)
    requires i + |part| <= |s| && s[i..i + |part|] == part
    ensures Contains(s, part)
    decreases i
  {
    if i > 0 {
      assert s[1..][i - 1..i - 1 + |part|] == part;
      ContainsAt(s[1..], part, i - 1);
    }
  }

  /** A run contained in a suffix is contained in the whole string. */
  lemma {:induction false} ContainedInSuffix(prefix: string, s: string, part: string)
    requires Contains(s, part)
    ensures Contains(prefix + s, part)
    decreases |prefix|
  {
    if prefix == [] {
      assert prefix + s == s;
    } else {
      assert (prefix + s)[1..] == prefix[1..] + s;
      ContainedInSuffix(prefix[1..], s, part);
    }
  }

  /** A string cannot contain a run with a character it lacks. */
  lemma {:induction false} MissingCharNotContained(s: string, part: string, c: char)
    requires c in part && c !in s
    ensures !Contains(s, part)
    decreases |s|
  {
    if s != [] {
      MissingCharNotContained(s[1..], part, c);
    }
  }

  /** The characters `String.prototype.trim` removes: ECMAScript WhiteSpace and LineTerminator. */
  predicate IsJsWhitespace(c: char) {
    || c == '\t' || c == '\n' || c == '\U{B}' || c == '\U{C}' || c == '\r' || c == ' '
    || c == '\U{A0}' || c == '\U{1680}' || ('\U{2000}' <= c <= '\U{200A}')
    || c == '\U{2028}' || c == '\U{2029}' || c == '\U{202F}' || c == '\U{205F}'
    || c == '\U{3000}' || c == '\U{FEFF}'
  }

  /** Drops leading whitespace: the result is the suffix of `s` starting at its first non-blank character. */
  function TrimStart(s: string): (r: string)
    ensures |r| <= |s| && r == s[|s| - |r|..]
    ensures forall k :: 0 <= k < |s| - |r| ==> IsJsWhitespace(s[k])
    ensures r == [] || !IsJsWhitespace(r[0])
  {
    if s != [] && IsJsWhitespace(s[0]) then
      var r := TrimStart(s[1..]);
      assert s[|s| - |r|..] == s[1..][|s| - 1 - |r|..];
      assert forall k :: 1 <= k < |s| - |r| ==> s[k] == s[1..][k - 1];
      r
    else s
  }

  /** Drops trailing whitespace: the result is the prefix of `s` ending at its last non-blank character. */
  function TrimEnd(s: string): (r: string)
    ensures |r| <= |s| && r == s[..|r|]
    ensures forall k :: |r| <= k < |s| ==> IsJsWhitespace(s[k])
    ensures r == [] || !IsJsWhitespace(r[|r| - 1])
  {
    if s != [] && IsJsWhitespace(s[|s| - 1]) then
      var r := TrimEnd(s[..|s| - 1]);
      assert s[..|r|] == s[..|s| - 1][..|r|];
      assert forall k :: |r| <= k < |s| - 1 ==> s[k] == s[..|s| - 1][k];
      r
    else s
  }

  /** `String.prototype.trim`. */
  function Trim(s: string): (r: string)
    ensures |r| <= |s|
    ensures r == [] || (!IsJsWhitespace(r[0]) && !IsJsWhitespace(r[|r| - 1]))
  {
    TrimEnd(TrimStart(s))
  }

  /** Trimming leaves nothing exactly when every character is whitespace. */
  lemma TrimEmptyIffBlank(s: string)
    ensures Trim(s) == [] <==> forall k :: 0 <= k < |s| ==> IsJsWhitespace(s[k])
  {
    var t := TrimStart(s);
    if Trim(s) == [] {
      assert t == [];
    }
  }

  /** A string with non-blank ends is its own trim. */
  lemma TrimOfTrimmed(s: string)
    requires s != [] && !IsJsWhitespace(s[0]) && !IsJsWhitespace(s[|s| - 1])
    ensures Trim(s) == s
  {
    assert TrimStart(s) == s;
  }

  /** Every character of a trimmed string comes from the input. */
  lemma TrimKeepsCharacters(s: string)
    ensures forall c :: c in Trim(s) ==> c in s
  {
    var t := TrimStart(s);
    var r := TrimEnd(t);
    assert r == Trim(s);
    forall c | c in r ensures c in s {
      var k :| 0 <= k < |r| && r[k] == c;
      assert t[k] == c;
      assert s[|s| - |t| + k] == c;
    }
  }

  /** `trim` removes exactly the surrounding whitespace: its result is the run of the input
      between a blank prefix and a blank suffix. */
  lemma TrimRemovesSurroundingWhitespace(s: string)
    ensures exists i {:trigger s[i..i + |Trim(s)|]} ::
      && 0 <= i <= |s| - |Trim(s)|
      && Trim(s) == s[i..i + |Trim(s)|]
      && (forall k :: 0 <= k < i ==> IsJsWhitespace(s[k]))
      && (forall k :: i + |Trim(s)| <= k < |s| ==> IsJsWhitespace(s[k]))
  {
    var i := TrimWindow(s);
    assert
      && 0 <= i <= |s| - |Trim(s)|
      && Trim(s) == s[i..i + |Trim(s)|]
      && (forall k :: 0 <= k < i ==> IsJsWhitespace(s[k]))
      && (forall k :: i + |Trim(s)| <= k < |s| ==> IsJsWhitespace(s[k]));
  }

  /** Where the trimmed run starts in the input. */
  lemma TrimWindow(s: string) returns (i: nat)
    ensures i + |Trim(s)| <= |s| && Trim(s) == s[i..i + |Trim(s)|]
    ensures forall k :: 0 <= k < i ==> IsJsWhitespace(s[k])
    ensures forall k :: i + |Trim(s)| <= k < |s| ==> IsJsWhitespace(s[k])
  {
    var t := TrimStart(s);
    var r := TrimEnd(t);
    i := |s| - |t|;
    PrefixOfSuffix(s, i, r);
    BlankTailOfSuffix(s, i, |r|);
  }

  /** A prefix of the suffix starting at `i` is the run starting at `i`. */
  lemma PrefixOfSuffix(s: string, i: nat, r: string)
    requires i <= |s| && |r| <= |s| - i && r == s[i..][..|r|]
    ensures r == s[i..i + |r|]
  {
  }

  /** Blank characters after a prefix of a suffix are blank characters of the whole string. */
  lemma BlankTailOfSuffix(s: string, i: nat, n: nat)
    requires i + n <= |s|
    requires forall k :: n <= k < |s[i..]| ==> IsJsWhitespace(s[i..][k])
    ensures forall k :: i + n <= k < |s| ==> IsJsWhitespace(s[k])
  {
    forall k | i + n <= k < |s|
      ensures IsJsWhitespace(s[k])
    {
      assert s[k] == s[i..][k - i];
    }
  }

  /** `s.replace(/<from>/g, <to>)` for a single character. */
  function ReplaceChar(s: string, from: char, to: char): (r: string)
    ensures |r| == |s|
    ensures forall k :: 0 <= k < |s| ==> r[k] == (if s[k] == from then to else s[k])
  {
    seq(|s|, k requires 0 <= k < |s| => if s[k] == from then to else s[k])
  }

  lemma ReplaceAbsentChar(s: string, from: char, to: char)
    requires from !in s
    ensures ReplaceChar(s, from, to) == s
  {
  }
}

=== FILE: user.dfy ===
/** The parts of a user document the friend subsystem reads: its identity and its interest tags. */
module UserModel {
  import opened Common

  /** A user reference, written as the string form of its document id; "" is a missing reference. */
  type UserId = string

  /** A free-text interest tag. */
  type Interest = string

  datatype User = User(id: UserId, interests: seq<Interest>)

  /** `User.findById`: the first user in the table with the given id. */
  function FindUser(users: seq<User>, id: UserId): (r: Option<User>)
    ensures r.Some? ==> r.value in users && r.value.id == id
    ensures r.None? ==> forall u :: u in users ==> u.id != id
  {
    if users == [] then None
    else if users[0].id == id then Some(users[0])
    else FindUser(users[1..], id)
  }
}
